=== FILE: README.md ===
# Habit tracker cloud functions, modelled in Dafny

The habit tracker's backend is a set of nine authenticated callable
functions over a hierarchical document store. They let a client sync,
load, list, back up, restore and share a user's monthly habit records,
and read and write the user's settings. Each one checks that the caller
is authenticated and reads or writes one or two documents. Some also
reshape what they read into a report.

This project models that backend in two parts.

- **Reports** (`reports.dfy`, pure). The analytics report of
  `generateAnalytics` and the shareable record of `shareProgress`, as
  functions of a month document. The JavaScript defaults (`|| 0`, `|| 31`,
  `|| 'Daily'`, `|| []`) and optional chaining (`?.`) are written out as
  explicit cases over `Option` fields.
- **Service** (`service.dfy`, imperative). A class `HabitSyncService`
  whose four `map` fields are the store's four collections (`users`,
  `months`, `backups`, `shares`). It has one method per callable function.
  Each method states the exact new contents of all four maps, the reply,
  and the error. Methods that only read change nothing.

Supporting modules:

- `outcomes.dfy`: `Option`, the three error kinds and the `try`/`catch`
  shape every handler shares.
- `keys.dfy`: the interpolated identifiers `${year}-${month}`,
  `${month} ${year}`, `backup_${Date.now()}` and `share_${Date.now()}`.
  It also holds the parsers that prove the month key can be read back.
- `documents.dfy`: the document shapes and the two store writes. A merge
  (`{merge: true}`) updates field by field. A plain `set` replaces the
  whole document.
- `scenarios.dfy`: call sequences proved from the method contracts alone
  (sync then load, backup then restore, two settings updates then a read).

Behaviour as written. Three handlers throw a `not-found` error when the
record they need is missing: `generateAnalytics`, `restoreData` and
`shareProgress`. They throw it inside their `try`, and the `catch` turns
every error into `internal`. So callers never see `not-found`, although
the service's error vocabulary includes that kind. The model follows the
code: `Outcomes.Caught` maps every thrown value to `Internal`.

Modelling choices:

- JavaScript's `undefined` (an absent field) is `None`.
- `undefined / n` (NaN) is an absent progress value.
- A property read on `undefined` is a thrown `TypeError`. One example is
  `habitState.year` when there is no `habitState`. Another is
  `dailyEfficiency[index]` when a month has daily totals but no
  efficiency array.
- A field explicitly set to `undefined` in a write is refused by the
  store (its default setting), for example `habits` missing from a sync
  payload.
- Each of these reaches the caller as `Internal`.

## Model

| member | source | states |
|---|---|---|
| `Outcomes.Caught` | cloud_functions/index.js:163-169 | Whatever is thrown inside a handler's `try`, including its own `not-found`, reaches the caller as `internal`; only a completed `try` gives a reply. |
| `Keys.MonthKey` | cloud_functions/index.js:22 | The month key `${year}-${month}`, split at its first `-` after the leading position, gives back the year and month it was built from. |
| `Keys.MonthLabel` | cloud_functions/index.js:291 | The share label `${month} ${year}`, split at its space, gives back the month and year it was built from. |
| `Keys.MonthKeyInjective` | cloud_functions/index.js:57 | Two month keys are equal exactly when their years and months are equal, so each (year, month) addresses its own document. |
| `Keys.IdsInjective` | cloud_functions/index.js:184 | `backup_<clock>` and `share_<clock>` identifiers are equal exactly when the clock readings are. |
| `Keys.BackupId` | cloud_functions/index.js:184-189 | A backup identifier starts with `backup_`. |
| `Keys.ShareId` | cloud_functions/index.js:310 | A share identifier starts with `share_`. |
| `Documents.MergeStats` | cloud_functions/index.js:24-29 | A merge-write of `stats` replaces exactly the statistics the write carries and keeps every other stored one. |
| `Documents.MergeMonth` | cloud_functions/index.js:24-29 | A merge-write of a month document creates it when absent; otherwise the written `habitState`, `habits` and `lastUpdated` replace the stored ones, a non-empty `stats` is merged field by field, an empty `stats` (`{}`) replaces the stored one, and `restoredAt` is kept. |
| `Documents.MergeUser` | cloud_functions/index.js:338-344 | A non-empty settings merge keeps every stored setting key, adds or replaces the written keys, and sets `updatedAt`; an empty `settings` (`{}`) replaces the stored settings with `{}`. |
| `Documents.MergeStatsIdempotent` | cloud_functions/index.js:24-29 | Merging the same statistics twice is the same as merging them once. |
| `Documents.MergeStatsComplete` | cloud_functions/index.js:27 | Statistics carrying every field replace the stored statistics whole. |
| `Documents.SettingsUpdatesCompose` | cloud_functions/index.js:341-344 | After two non-empty settings updates, the keys stored before and those of both updates are present, and the later update wins on shared keys. An empty second update leaves `{}`; an empty first update leaves only the second's keys. `updatedAt` is the later time. |
| `Reports.Named` | cloud_functions/index.js:143 | The filter's test `h => h.name` holds exactly when the name is present and non-empty. |
| `Reports.ActiveHabits` | cloud_functions/index.js:143 | `filter(h => h.name)` keeps only named habits, is never longer than the habits, keeps them all exactly when every habit is named, and keeps none exactly when none is. |
| `Reports.ActiveHabitsKept` | cloud_functions/index.js:143 | The filter keeps each named habit as often as it occurs, and no other habit. |
| `Reports.ActiveHabitsCount` | cloud_functions/index.js:143 | The number of active habits is the number of positions holding a habit with a truthy name. |
| `Reports.ActiveHabitsAppend` | cloud_functions/index.js:296 | Filtering keeps order: the active habits of two lists joined are the active habits of each, joined. |
| `Reports.GoalOf` | cloud_functions/index.js:152 | `targetGoal || 'Daily'`: the goal is `'Daily'` exactly when the target is absent or 0, otherwise the target; its count is never 0. |
| `Reports.Divisor` | cloud_functions/index.js:150 | `targetGoal`, or 31 when it is absent or 0, is never 0, and it equals the count of the goal reported beside it: the target when one is set, 31 for `'Daily'`. |
| `Reports.Progress` | cloud_functions/index.js:150 | Progress is defined exactly when the completion count is, and progress times the goal's count (31 when the goal is `'Daily'`) gives back the completions. |
| `Reports.Performances` | cloud_functions/index.js:148-153 | `habitPerformance` has one entry per habit, in order, each with the habit's name, completions, goal (the target, or `'Daily'` when absent or 0) and progress. |
| `Reports.DaysFrom` | cloud_functions/index.js:154-158 | The mapped daily entries from an index on have day numbers `index + 1`, the total of that index, and the efficiency at that index or none past the efficiency array's end. |
| `Reports.DailyPerformance` | cloud_functions/index.js:154-158 | `dailyPerformance` has one entry per daily total with `day = index + 1`, strictly increasing, is `[]` when the totals are absent, and throws exactly when there are totals but no efficiency array. |
| `Reports.OrZero` | cloud_functions/index.js:144-145 | An optional number defaulted to 0 is the number when present and 0 when absent. |
| `Reports.OrZeroInt` | cloud_functions/index.js:146 | The defaulted `currentStreak` is the streak when present and 0 when absent. |
| `Reports.Summarize` | cloud_functions/index.js:141-147 | `totalHabits` is the habit count (0 if absent); `activeHabits` is the number of habits with a truthy name, between 0 and `totalHabits`, and equal to it exactly when every habit is named; progress, success rate and streak are the stored values, or 0 when `stats` or the field is absent. |
| `Reports.Report` | cloud_functions/index.js:140-160 | The analytics report exists exactly when building the daily entries does not throw. Its summary is `Summarize` of the month, its habit entries are `Performances` of the month's habits (one per habit), its day entries are `DailyPerformance` of the stats (one per daily total), and `generatedAt` is the unresolved server-time placeholder. |
| `Reports.Percent` | cloud_functions/index.js:301 | The shared progress percentage times the goal's count is 100 times the completions. |
| `Reports.HabitShares` | cloud_functions/index.js:299-303 | The shared `details.habits` has one entry per habit, in order, with its name, goal and progress percentage. |
| `Reports.Share` | cloud_functions/index.js:289-307 | The shareable record names the caller's uid and `${month} ${year}`. Its `details` is null exactly when details were not asked for. Otherwise it holds `HabitShares` of the month's habits, one entry per habit, in order, each with the habit's name, goal and percentage, and the daily totals (`[]` when absent). `activeHabits` is the number of habits with a truthy name, and progress, success rate and streak are those of the analytics summary (0 when absent). The record can be stored exactly when, with details, every habit has a name. |
| `Reports.ShareAgreesWithReport` | cloud_functions/index.js:289-305 | For the same month, the shared summary equals the analytics summary. Each shared habit has the report's name and goal, and its progress times 100. The shared daily stats are the report's daily completions. |
| `Reports.DailyHabitExample` | cloud_functions/index.js:148-153 | A month with one habit named "Run", 10 completions and no goal reports progress 10/31, goal `'Daily'`, one active habit of one, and zero statistics. |
| `Service.SyncPatch` | cloud_functions/index.js:24-28 | Merged into any stored month, the sync payload sets `habitState`, `habits` and the caller's `lastUpdated`, and keeps the stored `restoredAt`. |
| `Service.Restored` | cloud_functions/index.js:243-248 | The restored document holds exactly the snapshot's `habitState`, `habits` and `stats`, the restore time, and no `lastUpdated`. |
| `Service.NewestFirstFills` | cloud_functions/index.js:86-93 | An answer to the history query (`NewestFirst`) holds as many documents as the limit allows (the limit, or all dated documents when fewer), each carrying a `habitState`. |
| `Service.NewestFirstDistinctMonths` | cloud_functions/index.js:86-93 | When every month document sits at its own `${year}-${month}` key, an answer to the history query never lists the same year and month twice. |
| `Service.Dated` | cloud_functions/index.js:86-91 | The documents the history query ranges over: a month document is in the set exactly when it belongs to the user and carries a `habitState`. |
| `Service.OtherMonthsUntouched` | cloud_functions/index.js:241-248 | Writing the month document of one (user, year, month) leaves the document of every other (user, year, month) as it was. |
| `Service.HabitSyncService.SyncHabitData` | cloud_functions/index.js:9-39 | Unauthenticated: fails and changes nothing. A missing `habitState`, `habits` or `stats`, or a store failure: fails `internal` and changes nothing. Otherwise: merges the payload, stamped with the caller's time, into the month at `${year}-${month}`, changes no other document, and keeps every month at its own key. |
| `Service.HabitSyncService.LoadHabitData` | cloud_functions/index.js:42-72 | Unauthenticated: fails. Store failure: `internal`. Otherwise replies `{exists:false}` exactly when the month document at `${year}-${month}` is absent, and else `{exists:true, data}` with the stored document. |
| `Service.HabitSyncService.GetHistoricalData` | cloud_functions/index.js:75-108 | Unauthenticated: fails. Store failure: `internal`. A negative `limitMonths` is rejected by the store: `internal`. Otherwise replies with the user's dated month documents, each with its id, newest first. It returns `min(limit, count)` of them, where the limit is `limitMonths`, or 12 when absent, with no omitted document newer than one returned. When every month sits at its own key, no month appears twice. |
| `Service.HabitSyncService.GenerateAnalytics` | cloud_functions/index.js:111-170 | Unauthenticated: fails. Never `not-found`: a missing month, a store failure or a throwing report all give `internal`. Otherwise replies with the report of the stored month. |
| `Service.HabitSyncService.BackupData` | cloud_functions/index.js:173-205 | Unauthenticated, no data, or store failure: fails and changes nothing. Otherwise writes `{data, timestamp, backupId}` under `backup_<clock>`, changes nothing else, and replies with that id. |
| `Service.HabitSyncService.RestoreData` | cloud_functions/index.js:208-258 | Unauthenticated: fails. A missing backup (`not-found` thrown), an incomplete snapshot or a store failure: `internal`, nothing changed. Otherwise overwrites without merge the month named by the backup's `habitState`: snapshot fields, `restoredAt`, no `lastUpdated`. Nothing else changes. |
| `Service.HabitSyncService.ShareProgress` | cloud_functions/index.js:261-324 | Unauthenticated: fails. Missing month, store failure, or details asked for a month with a habit without a name (the store refuses `name: undefined`): `internal`, nothing written. Otherwise writes the shareable record of the stored month under `share_<clock>`, returns it with that id, and changes no other document. |
| `Service.HabitSyncService.UpdateSettings` | cloud_functions/index.js:327-354 | Unauthenticated, no settings, or store failure: fails and changes nothing. Otherwise merges the settings into the user document with a server `updatedAt`, and changes no other document. |
| `Service.HabitSyncService.GetUserSettings` | cloud_functions/index.js:357-383 | Unauthenticated: fails. Store failure: `internal`. Otherwise replies with the stored settings, or `{}` when the user document or its `settings` field is absent. |
| `Scenarios.SyncThenLoad` | cloud_functions/index.js:53-64 | A sync followed by a load of the same year and month finds the month, with the written `habitState`, `habits`, caller timestamp and every written statistic; the stats are exactly the written ones if the month was new. |
| `Scenarios.BackupThenRestore` | cloud_functions/index.js:233-248 | A backup followed by a restore of the returned id leaves at the backed-up month exactly the snapshot's fields plus `restoredAt`, with no `lastUpdated`. |
| `Scenarios.UpdateTwiceThenGet` | cloud_functions/index.js:367-375 | Two non-empty settings updates followed by a read return the keys of both updates and of the settings stored before, the later update winning on shared keys; an empty update clears what came before it. |
| `Scenarios.ShareUnnamedSlotFails` | cloud_functions/index.js:298-323 | A detailed share of a month whose habit has no name fails with `internal` and publishes nothing. |

## Left out

- Firebase initialisation, the `HttpsError` transport and its message texts, and `console.error` logging are not modelled. Errors are the three kinds `Unauthenticated`, `NotFound` and `Internal`.
- Caller timestamps (`Timestamp.fromDate(new Date(timestamp))`) are taken as already-converted millisecond values. An unparseable date, which would throw and give `internal`, is not modelled.
- Server timestamps (`FieldValue.serverTimestamp()`) are resolved to a `commitTime` parameter when stored. The store's clock is not modelled.
- `Date.now()` is a `clock` parameter. Two calls with the same reading overwrite each other's backup or share, as in the code.
- Store failures are one `storeDown` parameter per call. A failed call changes nothing, which assumes each write is atomic.
- The store's query engine is not modelled. A selection loop in `GetHistoricalData` stands for it.
- Service.HabitSyncService.GetHistoricalData: `limitMonths` is an integer. A fractional limit, which the store would reject (giving `internal`), is not modelled.
- Service.HabitSyncService.GetHistoricalData: the order among documents with the same year and month is left open. The store breaks such ties by document id.
- Progress values use exact `real` arithmetic, not IEEE doubles. NaN from a missing completion count is an absent value.
- Concurrent calls and last-writer-wins races are out of scope for this sequential model.
- The handlers trust the payload `userId` and never compare it with `context.auth.uid`. The model keeps this as written.
- Values of the wrong JavaScript type are not modelled: a non-string habit name, a non-numeric year or month, a `null` habit entry, a non-boolean `includeDetails`, or a `null` or non-object payload. Each field has one type, and `includeDetails` is a `bool`.
- A `userId` that is not a valid document id is not modelled. The store would refuse it.
- Only the `year` and `month` fields of `habitState` are modelled. A merge combines `habitState` field by field, as it does `stats`; the model replaces it whole, which agrees with the program only because a sync always writes both modelled fields. So `Documents.MergeMonth` replacing the stored `habitState` is not a claim about its other fields. Setting values are flat, with no nested objects.
- A merge treats an empty `stats` or `settings` object as one value and replaces the stored one with `{}`, as modelled. So an empty settings update discards the settings stored before it. Statistics fields other than the five the handlers read are not modelled, so a `stats` object holding only such fields counts as empty.
- Identifiers and keys are built from unbounded integers. JavaScript writes the same decimal text only below 10^21 and holds integers exactly only up to 2^53, so the injectivity of month keys and identifiers is proved for the model's integers, and holds for the program only within those ranges.
- A month document field named `id` would override the document id in a history entry (`{id, ...data}`). This is not modelled.

=== FILE: documents.dfy ===
/** The documents the handlers read and write, and the two ways the store
    writes one: a merge (`set(..., {merge: true})`), which keeps every field
    the write does not mention, and a plain `set`, which replaces the whole
    document. */
module Documents {
  import opened Outcomes

  /** A stored time: milliseconds since the epoch, or the store's
      server-time placeholder (`FieldValue.serverTimestamp()`) as it looks
      before the store substitutes its own clock. */
  datatype Time = At(millis: int) | ServerTime

  /** One habit slot of a month. An empty or absent name marks an unused
      slot. */
  datatype Habit = Habit(name: Option<string>, totalCompletions: Option<int>, targetGoal: Option<int>)

  /** A month's statistics; `dailyTotals[d - 1]` and `dailyEfficiency[d - 1]`
      belong to day `d`. */
  datatype Stats = Stats(
    monthlyProgress: Option<real>,
    successRate: Option<real>,
    currentStreak: Option<int>,
    dailyTotals: Option<seq<int>>,
    dailyEfficiency: Option<seq<real>>)

  /** The calendar position of a month's data (the other fields of the
      client's `habitState` are carried along unread and not modelled). */
  datatype HabitState = HabitState(year: int, month: int)

  /** `users/{userId}/months/{year-month}`. */
  datatype MonthDoc = MonthDoc(
    habitState: Option<HabitState>,
    habits: Option<seq<Habit>>,
    stats: Option<Stats>,
    lastUpdated: Option<Time>,
    restoredAt: Option<Time>)

  datatype SettingValue = Flag(flag: bool) | Number(number: real) | Text(text: string)

  /** `users/{userId}`. */
  datatype UserDoc = UserDoc(settings: Option<map<string, SettingValue>>, updatedAt: Option<Time>)

  /** The month snapshot a client hands to `backupData`. */
  datatype Snapshot = Snapshot(habitState: Option<HabitState>, habits: Option<seq<Habit>>, stats: Option<Stats>)

  /** `users/{userId}/backups/{backupId}`. */
  datatype BackupDoc = BackupDoc(data: Option<Snapshot>, timestamp: Time, backupId: string)

  /** Merging a statistics object field by field: a field the write carries
      replaces the stored one, every other stored field stays (the arrays are
      single values and are replaced whole). */
  function MergeStats(stored: Stats, written: Stats): (r: Stats)
    ensures written.monthlyProgress.Some? ==> r.monthlyProgress == written.monthlyProgress
    ensures written.monthlyProgress.None? ==> r.monthlyProgress == stored.monthlyProgress
    ensures written.successRate.Some? ==> r.successRate == written.successRate
    ensures written.successRate.None? ==> r.successRate == stored.successRate
    ensures written.currentStreak.Some? ==> r.currentStreak == written.currentStreak
    ensures written.currentStreak.None? ==> r.currentStreak == stored.currentStreak
    ensures written.dailyTotals.Some? ==> r.dailyTotals == written.dailyTotals
    ensures written.dailyTotals.None? ==> r.dailyTotals == stored.dailyTotals
    ensures written.dailyEfficiency.Some? ==> r.dailyEfficiency == written.dailyEfficiency
    ensures written.dailyEfficiency.None? ==> r.dailyEfficiency == stored.dailyEfficiency
  {
    Stats(
      Pick(stored.monthlyProgress, written.monthlyProgress),
      Pick(stored.successRate, written.successRate),
      Pick(stored.currentStreak, written.currentStreak),
      Pick(stored.dailyTotals, written.dailyTotals),
      Pick(stored.dailyEfficiency, written.dailyEfficiency))
  }

  /** A statistics object with no field at all: `{}`. A merge treats an
      empty object as a single value, so it replaces the stored one. */
  predicate EmptyStats(s: Stats) {
    && s.monthlyProgress.None? && s.successRate.None? && s.currentStreak.None?
    && s.dailyTotals.None? && s.dailyEfficiency.None?
  }

  /** Every field `written` carries has its value in `merged`. */
  predicate Carries(merged: Stats, written: Stats) {
    && (written.monthlyProgress.Some? ==> merged.monthlyProgress == written.monthlyProgress)
    && (written.successRate.Some? ==> merged.successRate == written.successRate)
    && (written.currentStreak.Some? ==> merged.currentStreak == written.currentStreak)
    && (written.dailyTotals.Some? ==> merged.dailyTotals == written.dailyTotals)
    && (written.dailyEfficiency.Some? ==> merged.dailyEfficiency == written.dailyEfficiency)
  }

  /** One field of a merge: the written value if there is one. */
  function Pick<T>(stored: Option<T>, written: Option<T>): Option<T> {
    if written.Some? then written else stored
  }

  /** Merging a month document into whatever is stored at its path. */
  function MergeMonth(stored: Option<MonthDoc>, written: MonthDoc): (r: MonthDoc)
    ensures stored.None? ==> r == written
    ensures written.habitState.Some? ==> r.habitState == written.habitState
    ensures written.habits.Some? ==> r.habits == written.habits
    ensures written.lastUpdated.Some? ==> r.lastUpdated == written.lastUpdated
    ensures written.restoredAt.None? && stored.Some? ==> r.restoredAt == stored.value.restoredAt
    ensures written.stats.Some? && (stored.None? || stored.value.stats.None?) ==> r.stats == written.stats
    ensures written.stats.Some? && EmptyStats(written.stats.value) ==> r.stats == written.stats
    ensures written.stats.Some? && !EmptyStats(written.stats.value) && stored.Some? && stored.value.stats.Some? ==>
              r.stats == Some(MergeStats(stored.value.stats.value, written.stats.value))
  {
    match stored
    case None => written
    case Some(s) =>
      MonthDoc(
        Pick(s.habitState, written.habitState),
        Pick(s.habits, written.habits),
        if s.stats.Some? && written.stats.Some? && !EmptyStats(written.stats.value)
        then Some(MergeStats(s.stats.value, written.stats.value))
        else Pick(s.stats, written.stats),
        Pick(s.lastUpdated, written.lastUpdated),
        Pick(s.restoredAt, written.restoredAt))
  }

  /** Merging `{settings, updatedAt}` into a user document: the settings are
      merged key by key, the written value winning on a shared key. An empty
      `settings` object is a single value to the merge and replaces the
      stored settings with `{}`. */
  function MergeUser(stored: Option<UserDoc>, settings: map<string, SettingValue>, updatedAt: Time): (r: UserDoc)
    ensures r.updatedAt == Some(updatedAt) && r.settings.Some?
    ensures settings == map[] ==> r.settings.value == map[]
    ensures settings != map[] ==> r.settings.value.Keys == settings.Keys + StoredSettings(stored).Keys
    ensures forall k :: k in settings ==> r.settings.value[k] == settings[k]
    ensures settings != map[] ==> forall k :: k in StoredSettings(stored) && k !in settings ==>
              r.settings.value[k] == StoredSettings(stored)[k]
  {
    UserDoc(Some(if settings == map[] then map[] else StoredSettings(stored) + settings), Some(updatedAt))
  }

  /** The settings already on record (none when the document or its
      `settings` field is absent). */
  function StoredSettings(stored: Option<UserDoc>): map<string, SettingValue> {
    if stored.Some? && stored.value.settings.Some? then stored.value.settings.value else map[]
  }

  /** A statistics merge is idempotent: writing the same object twice is
      the same as writing it once. */
  lemma MergeStatsIdempotent(stored: Stats, written: Stats)
    ensures MergeStats(MergeStats(stored, written), written) == MergeStats(stored, written)
  {
  }

  /** A statistics object carrying every field replaces the stored one. */
  lemma MergeStatsComplete(stored: Stats, written: Stats)
    requires written.monthlyProgress.Some? && written.successRate.Some? && written.currentStreak.Some?
    requires written.dailyTotals.Some? && written.dailyEfficiency.Some?
    ensures MergeStats(stored, written) == written
  {
  }

  /** Two non-empty settings updates both persist beside the settings
      stored before; on a shared key the later one wins. An empty update
      clears what came before it. */
  lemma SettingsUpdatesCompose(stored: Option<UserDoc>, first: map<string, SettingValue>,
                               second: map<string, SettingValue>, t1: Time, t2: Time)
    ensures var u := MergeUser(Some(MergeUser(stored, first, t1)), second, t2);
            && (second == map[] ==> u.settings.value == map[])
            && (second != map[] && first == map[] ==> u.settings.value == second)
            && (second != map[] && first != map[] ==>
                  u.settings.value.Keys == StoredSettings(stored).Keys + first.Keys + second.Keys)
            && (forall k :: k in second ==> u.settings.value[k] == second[k])
            && (second != map[] ==> forall k :: k in first && k !in second ==> u.settings.value[k] == first[k])
            && u.updatedAt == Some(t2)
  {
  }
}

=== FILE: keys.dfy ===
/** The identifiers the handlers build by string interpolation: the month
    document key `${year}-${month}`, the share label `${month} ${year}`, and
    the `backup_`/`share_` identifiers built from the clock. */
module Keys {

  predicate IsDigit(c: char) {
    '0' <= c <= '9'
  }

  function DigitChar(d: nat): (c: char)
    requires d < 10
    ensures IsDigit(c)
  {
    ('0' as int + d) as char
  }

  function DigitValue(c: char): nat {
    if IsDigit(c) then c as int - '0' as int else 0
  }

  /** The decimal numeral JavaScript writes for a non-negative integer
      below 10^21 (from there on it writes exponent notation such as
      `1e+21`), and exact only up to 2^53, the largest integer a JavaScript
      number holds without rounding. The model has no such bound: what is
      proved below about identifiers holds for every integer in the model,
      and for the program only within those ranges. */
  function Numeral(n: nat): (s: string)
    ensures |s| >= 1
    ensures forall i :: 0 <= i < |s| ==> IsDigit(s[i])
  {
    if n < 10 then [DigitChar(n)] else Numeral(n / 10) + [DigitChar(n % 10)]
  }

  /** The text of an integer in a template literal: an optional minus sign,
      then the decimal numeral of its magnitude. */
  function IntText(i: int): (s: string)
    ensures |s| >= 1
    ensures (s[0] == '-') <==> i < 0
    ensures i >= 0 ==> IsDigit(s[0])
    ensures forall k :: 1 <= k < |s| ==> IsDigit(s[k])
  {
    if i < 0 then "-" + Numeral(-i) else Numeral(i)
  }

  /** The key of a month document: `${year}-${month}`. Splitting it at its
      first '-' after the leading position gives back the year and the
      month, so the key names one (year, month) only. */
  function MonthKey(year: int, month: int): (k: string)
    ensures ParseMonthKey(k) == (year, month)
  {
    var a, b := IntText(year), IntText(month);
    var k := a + "-" + b;
    SeparatorAfterText(a, b, '-', 1);
    assert k[..|a|] == a;
    assert k[|a| + 1..] == b;
    IntValueOfText(year);
    IntValueOfText(month);
    k
  }

  /** The month label of a share record: `${month} ${year}`. Splitting it at
      its space gives back the month and the year. */
  function MonthLabel(year: int, month: int): (l: string)
    ensures ParseMonthLabel(l) == (year, month)
  {
    var a, b := IntText(month), IntText(year);
    var l := a + " " + b;
    SeparatorAfterText(a, b, ' ', 0);
    assert l[..|a|] == a;
    assert l[|a| + 1..] == b;
    IntValueOfText(year);
    IntValueOfText(month);
    l
  }

  /** `backup_${Date.now()}`, the clock reading given as a parameter. */
  function BackupId(clock: nat): (id: string)
    ensures "backup_" <= id
  {
    "backup_" + Numeral(clock)
  }

  /** `share_${Date.now()}`, the clock reading given as a parameter. */
  function ShareId(clock: nat): (id: string)
    ensures "share_" <= id
  {
    "share_" + Numeral(clock)
  }

  // Reading identifiers back. These are the inverses that show the
  // identifiers above are unambiguous.

  /** The number a string of digits denotes. */
  function ValueOf(s: string): nat {
    if s == [] then 0 else ValueOf(s[..|s| - 1]) * 10 + DigitValue(s[|s| - 1])
  }

  /** The integer a template-literal text denotes. */
  function IntValue(s: string): int {
    if |s| > 0 && s[0] == '-' then -(ValueOf(s[1..]) as int) else ValueOf(s)
  }

  /** The first position at or after `i` holding `sep` (|s| if none). */
  function SeparatorFrom(s: string, sep: char, i: nat): (j: nat)
    requires i <= |s|
    ensures i <= j <= |s|
    decreases |s| - i
  {
    if i == |s| then |s| else if s[i] == sep then i else SeparatorFrom(s, sep, i + 1)
  }

  /** Splits a month key at its first '-' that is not a leading sign. */
  function ParseMonthKey(key: string): (int, int) {
    if |key| == 0 then (0, 0)
    else
      var j := SeparatorFrom(key, '-', 1);
      if j == |key| then (IntValue(key), 0)
      else (IntValue(key[..j]), IntValue(key[j + 1..]))
  }

  /** Splits a month label at its first space: (year, month). */
  function ParseMonthLabel(text: string): (int, int) {
    var j := SeparatorFrom(text, ' ', 0);
    if j == |text| then (0, IntValue(text))
    else (IntValue(text[j + 1..]), IntValue(text[..j]))
  }

  lemma {:induction false} ValueOfNumeral(n: nat)
    ensures ValueOf(Numeral(n)) == n
  {
    if n >= 10 {
      var s := Numeral(n);
      assert s[..|s| - 1] == Numeral(n / 10);
      ValueOfNumeral(n / 10);
    }
  }

  /** Reading the text of an integer gives back the integer. */
  lemma IntValueOfText(i: int)
    ensures IntValue(IntText(i)) == i
  {
    if i < 0 {
      assert IntText(i)[1..] == Numeral(-i);
      ValueOfNumeral(-i);
    } else {
      ValueOfNumeral(i);
    }
  }

  /** In `a + [sep] + b` where `a` is an integer's text and `sep` occurs in
      `a` at no position from `i` on, the first `sep` from `i` on is the one
      right after `a`. */
  lemma {:induction false} SeparatorAfterText(a: string, b: string, sep: char, i: nat)
    requires |a| >= 1 && forall k :: 1 <= k < |a| ==> IsDigit(a[k])
    requires (a[0] == '-' || IsDigit(a[0])) && !IsDigit(sep)
    requires i <= |a| && (i == 0 ==> a[0] != sep)
    ensures SeparatorFrom(a + [sep] + b, sep, i) == |a|
    decreases |a| - i
  {
    var s := a + [sep] + b;
    if i < |a| {
      assert s[i] == a[i];
      SeparatorAfterText(a, b, sep, i + 1);
    } else {
      assert s[i] == sep;
    }
  }

  /** Distinct clock readings give distinct backup and share identifiers. */
  lemma IdsInjective(c1: nat, c2: nat)
    ensures BackupId(c1) == BackupId(c2) <==> c1 == c2
    ensures ShareId(c1) == ShareId(c2) <==> c1 == c2
  {
    assert BackupId(c1)[7..] == Numeral(c1) && BackupId(c2)[7..] == Numeral(c2);
    assert ShareId(c1)[6..] == Numeral(c1) && ShareId(c2)[6..] == Numeral(c2);
    ValueOfNumeral(c1);
    ValueOfNumeral(c2);
  }

  /** Distinct (year, month) pairs address distinct month documents. */
  lemma MonthKeyInjective(y1: int, m1: int, y2: int, m2: int)
    ensures MonthKey(y1, m1) == MonthKey(y2, m2) <==> (y1 == y2 && m1 == m2)
  {
  }
}

=== FILE: outcomes.dfy ===
/** Optional values, the error kinds a callable handler reports, and the
    try/catch shape every handler shares. */
module Outcomes {

  /** A field that may be absent from a document or a payload (JavaScript's
      `undefined`). */
  datatype Option<+T> = None | Some(value: T)

  /** The error kinds a caller can receive (an `HttpsError` code). */
  datatype ErrorKind = Unauthenticated | NotFound | Internal

  datatype Result<+T> = Ok(value: T) | Err(error: ErrorKind)

  /** What can be thrown inside a handler's `try` block. */
  datatype Thrown =
    | NotFoundError     // the handler's own `HttpsError('not-found', ...)`
    | TypeError         // a property read on `undefined`
    | UndefinedField    // the store refuses a field whose value is `undefined`
    | StoreUnavailable  // the store request itself fails
    | InvalidArgument   // the store rejects a malformed query

  /** The outcome of a handler's `try` block: a reply, or something thrown. */
  datatype Attempt<+T> = Done(reply: T) | Threw(thrown: Thrown)

  /** The `catch` block shared by every handler: whatever was thrown, the
      `not-found` error included, reaches the caller as `internal`. */
  function Caught<T>(a: Attempt<T>): (r: Result<T>)
    ensures r.Ok? <==> a.Done?
    ensures a.Done? ==> r.value == a.reply
    ensures a.Threw? ==> r.error == Internal
  {
    match a
    case Done(v) => Ok(v)
    case Threw(_) => Err(Internal)
  }
}

=== FILE: reports.dfy ===
/** The two reports derived from a month document: the analytics report of
    `generateAnalytics` and the shareable record of `shareProgress`. Both are
    built from `?.`, `||`, `filter` and `map` over the month's optional
    fields; here each of those steps is a function, and the defaults the
    JavaScript operators supply (`|| 0`, `|| 31`, `|| 'Daily'`, `|| []`)
    appear as explicit cases. */
module Reports {
  import opened Outcomes
  import opened Documents
  import opened Keys

  // ---------------------------------------------------------------- habits

  /** `h.name` is truthy: present and not the empty string. */
  function Named(h: Habit): (b: bool)
    ensures b <==> h.name.Some? && |h.name.value| > 0
  {
    h.name.Some? && h.name.value != ""
  }

  /** `monthData.habits || []`: the month's habits, none when absent. */
  function HabitsOf(doc: MonthDoc): seq<Habit> {
    if doc.habits.Some? then doc.habits.value else []
  }

  /** The positions of the named habits. */
  function NamedAt(hs: seq<Habit>): set<nat> {
    set i: nat | i < |hs| && Named(hs[i])
  }

  /** `habits.filter(h => h.name)`. */
  function ActiveHabits(hs: seq<Habit>): (r: seq<Habit>)
    ensures |r| <= |hs|
    ensures forall i :: 0 <= i < |r| ==> Named(r[i])
    ensures |r| == |hs| <==> forall i :: 0 <= i < |hs| ==> Named(hs[i])
    ensures |r| == 0 <==> forall i :: 0 <= i < |hs| ==> !Named(hs[i])
  {
    if hs == [] then []
    else
      var rest := ActiveHabits(hs[1..]);
      assert forall i :: 1 <= i < |hs| ==> hs[i] == hs[1..][i - 1];
      if Named(hs[0]) then [hs[0]] + rest else rest
  }

  /** What a habit's goal reads as: `habit.targetGoal || 'Daily'`. */
  datatype Goal = Target(count: int) | Daily

  function GoalOf(h: Habit): (g: Goal)
    ensures g == Daily <==> h.targetGoal.None? || h.targetGoal.value == 0
    ensures g.Target? ==> g.count == h.targetGoal.value
    ensures GoalCount(g) != 0
  {
    if h.targetGoal.Some? && h.targetGoal.value != 0 then Target(h.targetGoal.value) else Daily
  }

  /** The completions a goal asks for in a month: its count, or 31 for a
      daily habit. */
  function GoalCount(g: Goal): int {
    if g.Target? then g.count else 31
  }

  /** `habit.targetGoal || 31`, the divisor of a habit's progress. */
  function Divisor(h: Habit): (d: int)
    ensures d != 0
    ensures d == GoalCount(GoalOf(h))
  {
    if h.targetGoal.Some? && h.targetGoal.value != 0 then h.targetGoal.value else 31
  }

  /** `habit.totalCompletions / (habit.targetGoal || 31)`; absent (NaN in
      JavaScript) when the habit has no completion count. Progress times
      the goal's count gives back the completions. */
  function Progress(h: Habit): (p: Option<real>)
    ensures p.Some? <==> h.totalCompletions.Some?
    ensures p.Some? ==> p.value * GoalCount(GoalOf(h)) as real == h.totalCompletions.value as real
  {
    if h.totalCompletions.Some? then Some(h.totalCompletions.value as real / Divisor(h) as real) else None
  }

  /** One entry of `habitPerformance`. */
  datatype HabitPerformance = HabitPerformance(name: Option<string>, progress: Option<real>,
                                               completions: Option<int>, goal: Goal)

  /** `habits.map(habit => ({name, progress, completions, goal}))`. */
  function Performances(hs: seq<Habit>): (r: seq<HabitPerformance>)
    ensures |r| == |hs|
    ensures forall i :: 0 <= i < |hs| ==>
              && r[i].name == hs[i].name
              && r[i].completions == hs[i].totalCompletions
              && r[i].goal == GoalOf(hs[i])
              && r[i].progress == Progress(hs[i])
  {
    if hs == [] then []
    else [HabitPerformance(hs[0].name, Progress(hs[0]), hs[0].totalCompletions, GoalOf(hs[0]))]
         + Performances(hs[1..])
  }

  // ------------------------------------------------------------------ days

  /** `stats?.dailyTotals || []`. */
  function Totals(stats: Option<Stats>): seq<int> {
    if stats.Some? && stats.value.dailyTotals.Some? then stats.value.dailyTotals.value else []
  }

  /** `dailyEfficiency[index]`: absent past the end of the array. */
  function EfficiencyAt(eff: seq<real>, index: nat): Option<real> {
    if index < |eff| then Some(eff[index]) else None
  }

  /** The map over `dailyTotals` throws when there is a first element to map
      and `dailyEfficiency` is absent, so that indexing it fails. */
  predicate DailyThrows(stats: Option<Stats>) {
    stats.Some? && |Totals(stats)| > 0 && stats.value.dailyEfficiency.None?
  }

  /** One entry of `dailyPerformance`. */
  datatype DayPerformance = DayPerformance(day: int, completions: int, efficiency: Option<real>)

  /** The entries of `dailyTotals.map((total, index) => ...)` from `index`
      onwards. */
  function DaysFrom(totals: seq<int>, eff: seq<real>, index: nat): (r: seq<DayPerformance>)
    requires index <= |totals|
    ensures |r| == |totals| - index
    ensures forall k :: 0 <= k < |r| ==>
              && r[k].day == index + k + 1
              && r[k].completions == totals[index + k]
              && r[k].efficiency == EfficiencyAt(eff, index + k)
    decreases |totals| - index
  {
    if index == |totals| then []
    else [DayPerformance(index + 1, totals[index], EfficiencyAt(eff, index))] + DaysFrom(totals, eff, index + 1)
  }

  /** `stats?.dailyTotals?.map(...) || []`, absent when the map throws. The
      days are numbered 1..n in order, one per daily total. */
  function DailyPerformance(stats: Option<Stats>): (r: Option<seq<DayPerformance>>)
    ensures r.None? <==> DailyThrows(stats)
    ensures r.Some? ==> |r.value| == |Totals(stats)|
    ensures r.Some? ==> forall i :: 0 <= i < |r.value| ==>
              && r.value[i].day == i + 1
              && r.value[i].completions == Totals(stats)[i]
              && r.value[i].efficiency == EfficiencyAt(stats.value.dailyEfficiency.value, i)
    ensures r.Some? ==> forall i, j :: 0 <= i < j < |r.value| ==> r.value[i].day < r.value[j].day
  {
    if Totals(stats) == [] then Some([])
    else if stats.value.dailyEfficiency.None? then None
    else Some(DaysFrom(Totals(stats), stats.value.dailyEfficiency.value, 0))
  }

  // --------------------------------------------------------------- summary

  /** `x || 0` on a number that may be absent. */
  function OrZero(x: Option<real>): (r: real)
    ensures r == if x.Some? then x.value else 0.0
  {
    if x.Some? && x.value != 0.0 then x.value else 0.0
  }

  function OrZeroInt(x: Option<int>): (r: int)
    ensures r == if x.Some? then x.value else 0
  {
    if x.Some? && x.value != 0 then x.value else 0
  }

  function MonthlyProgress(doc: MonthDoc): real {
    OrZero(if doc.stats.Some? then doc.stats.value.monthlyProgress else None)
  }

  function SuccessRate(doc: MonthDoc): real {
    OrZero(if doc.stats.Some? then doc.stats.value.successRate else None)
  }

  function CurrentStreak(doc: MonthDoc): int {
    OrZeroInt(if doc.stats.Some? then doc.stats.value.currentStreak else None)
  }

  datatype Summary = Summary(totalHabits: int, activeHabits: int, monthlyProgress: real,
                             successRate: real, currentStreak: int)

  /** The `summary` object of the analytics report. */
  function Summarize(doc: MonthDoc): (s: Summary)
    ensures doc.habits.None? ==> s.totalHabits == 0
    ensures doc.habits.Some? ==> s.totalHabits == |doc.habits.value|
    ensures 0 <= s.activeHabits <= s.totalHabits
    ensures s.activeHabits == |NamedAt(HabitsOf(doc))|
    ensures s.activeHabits == s.totalHabits <==> forall i :: 0 <= i < |HabitsOf(doc)| ==> Named(HabitsOf(doc)[i])
    ensures s.monthlyProgress == if doc.stats.Some? && doc.stats.value.monthlyProgress.Some?
                                 then doc.stats.value.monthlyProgress.value else 0.0
    ensures s.successRate == if doc.stats.Some? && doc.stats.value.successRate.Some?
                             then doc.stats.value.successRate.value else 0.0
    ensures s.currentStreak == if doc.stats.Some? && doc.stats.value.currentStreak.Some?
                               then doc.stats.value.currentStreak.value else 0
  {
    ActiveHabitsCount(HabitsOf(doc));
    Summary(|HabitsOf(doc)|, |ActiveHabits(HabitsOf(doc))|,
            MonthlyProgress(doc), SuccessRate(doc), CurrentStreak(doc))
  }

  // ------------------------------------------------------------- analytics

  datatype Analytics = Analytics(summary: Summary, habitPerformance: seq<HabitPerformance>,
                                 dailyPerformance: seq<DayPerformance>, generatedAt: Time)

  /** The `analytics` object; absent when building it throws. Its
      `generatedAt` is the server-time placeholder itself, which nothing
      resolves because the object is returned, not stored. */
  function Report(doc: MonthDoc): (r: Option<Analytics>)
    ensures r.None? <==> DailyThrows(doc.stats)
    ensures r.Some? ==> r.value.summary == Summarize(doc)
    ensures r.Some? ==> r.value.habitPerformance == Performances(HabitsOf(doc))
    ensures r.Some? ==> Some(r.value.dailyPerformance) == DailyPerformance(doc.stats)
    ensures r.Some? ==> |r.value.habitPerformance| == r.value.summary.totalHabits
    ensures r.Some? ==> |r.value.dailyPerformance| == |Totals(doc.stats)|
    ensures r.Some? ==> r.value.generatedAt == ServerTime
  {
    match DailyPerformance(doc.stats)
    case None => None
    case Some(days) => Some(Analytics(Summarize(doc), Performances(HabitsOf(doc)), days, ServerTime))
  }

  // ----------------------------------------------------------------- share

  datatype ShareSummary = ShareSummary(monthlyProgress: real, successRate: real,
                                       currentStreak: int, activeHabits: int)

  datatype HabitShare = HabitShare(name: Option<string>, progress: Option<real>, goal: Goal)

  datatype Details = Details(habits: seq<HabitShare>, dailyStats: seq<int>)

  /** `shared_progress/{shareId}`, and the `shareableData` reply. */
  datatype ShareableData = ShareableData(user: string, month: string, summary: ShareSummary,
                                         details: Option<Details>, sharedAt: Time)

  /** `(habit.totalCompletions / (habit.targetGoal || 31)) * 100`: the
      progress as a percentage of the goal's count. */
  function Percent(h: Habit): (p: Option<real>)
    ensures p.Some? <==> h.totalCompletions.Some?
    ensures p.Some? ==> p.value * GoalCount(GoalOf(h)) as real == 100.0 * h.totalCompletions.value as real
  {
    if h.totalCompletions.Some?
    then
      var q := h.totalCompletions.value as real / Divisor(h) as real;
      assert q * Divisor(h) as real == h.totalCompletions.value as real;
      Some(q * 100.0)
    else None
  }

  /** `habits.map(habit => ({name, progress, goal}))` of the share details. */
  function HabitShares(hs: seq<Habit>): (r: seq<HabitShare>)
    ensures |r| == |hs|
    ensures forall i :: 0 <= i < |hs| ==>
              && r[i].name == hs[i].name
              && r[i].goal == GoalOf(hs[i])
              && r[i].progress == Percent(hs[i])
  {
    if hs == [] then [] else [HabitShare(hs[0].name, Percent(hs[0]), GoalOf(hs[0]))] + HabitShares(hs[1..])
  }

  /** A record the store accepts: with details, no shared habit has an
      `undefined` name (a field set to `undefined` is refused). */
  predicate Storable(s: ShareableData) {
    s.details.Some? ==> forall i :: 0 <= i < |s.details.value.habits| ==> s.details.value.habits[i].name.Some?
  }

  /** The shareable record of a month. `user` is the caller's verified
      identity, `sharedAt` the converted caller timestamp. */
  function Share(uid: string, year: int, month: int, includeDetails: bool,
                 doc: MonthDoc, sharedAt: Time): (s: ShareableData)
    ensures s.user == uid && s.month == MonthLabel(year, month) && s.sharedAt == sharedAt
    ensures s.details.None? <==> !includeDetails
    ensures s.details.Some? ==> s.details.value.habits == HabitShares(HabitsOf(doc))
    ensures s.details.Some? ==> |s.details.value.habits| == |HabitsOf(doc)|
    ensures s.details.Some? ==> s.details.value.dailyStats == Totals(doc.stats)
    ensures s.summary.activeHabits == |NamedAt(HabitsOf(doc))| <= |HabitsOf(doc)|
    ensures s.summary.monthlyProgress == Summarize(doc).monthlyProgress
    ensures s.summary.successRate == Summarize(doc).successRate
    ensures s.summary.currentStreak == Summarize(doc).currentStreak
    ensures Storable(s) <==> !includeDetails || forall i :: 0 <= i < |HabitsOf(doc)| ==> HabitsOf(doc)[i].name.Some?
  {
    ActiveHabitsCount(HabitsOf(doc));
    ShareableData(
      uid,
      MonthLabel(year, month),
      ShareSummary(MonthlyProgress(doc), SuccessRate(doc), CurrentStreak(doc), |ActiveHabits(HabitsOf(doc))|),
      if includeDetails then Some(Details(HabitShares(HabitsOf(doc)), Totals(doc.stats))) else None,
      sharedAt)
  }

  // ---------------------------------------------------------------- lemmas

  /** Filtering keeps order: the active habits of a concatenation are the
      active habits of each part, one after the other. */
  lemma {:induction false} ActiveHabitsAppend(a: seq<Habit>, b: seq<Habit>)
    ensures ActiveHabits(a + b) == ActiveHabits(a) + ActiveHabits(b)
  {
    if a == [] {
      assert a + b == b;
    } else {
      assert (a + b)[0] == a[0];
      assert (a + b)[1..] == a[1..] + b;
      ActiveHabitsAppend(a[1..], b);
    }
  }

  /** The filter keeps every named habit, as often as it occurs, and no
      other habit. */
  lemma {:induction false} ActiveHabitsKept(hs: seq<Habit>)
    ensures forall h :: multiset(ActiveHabits(hs))[h] == if Named(h) then multiset(hs)[h] else 0
  {
    if hs != [] {
      ActiveHabitsKept(hs[1..]);
      assert multiset(hs) == multiset{hs[0]} + multiset(hs[1..]) by {
        assert hs == [hs[0]] + hs[1..];
      }
      if Named(hs[0]) {
        assert ActiveHabits(hs) == [hs[0]] + ActiveHabits(hs[1..]);
        assert multiset(ActiveHabits(hs)) == multiset{hs[0]} + multiset(ActiveHabits(hs[1..]));
      }
    }
  }

  /** `activeHabits` is the number of habits with a truthy name. */
  lemma {:induction false} ActiveHabitsCount(hs: seq<Habit>)
    ensures |ActiveHabits(hs)| == |NamedAt(hs)|
    decreases |hs|
  {
    if hs == [] {
      assert NamedAt(hs) == {};
    } else {
      var init, last := hs[..|hs| - 1], hs[|hs| - 1];
      assert hs == init + [last];
      ActiveHabitsAppend(init, [last]);
      ActiveHabitsCount(init);
      NamedAtSnoc(init, last);
      assert ActiveHabits([last]) == if Named(last) then [last] else [] by {
        assert [last][1..] == [];
      }
      assert |init| !in NamedAt(init);
    }
  }

  lemma NamedAtSnoc(hs: seq<Habit>, h: Habit)
    ensures NamedAt(hs + [h]) == if Named(h) then NamedAt(hs) + {|hs|} else NamedAt(hs)
  {
    var ext := hs + [h];
    assert forall i :: 0 <= i < |hs| ==> ext[i] == hs[i];
    assert ext[|hs|] == h;
  }

  /** The shared record agrees with the analytics report of the same month:
      the same summary figures, the same habits with progress scaled to a
      percentage, and the daily totals the report numbers by day. */
  lemma ShareAgreesWithReport(uid: string, year: int, month: int, doc: MonthDoc, sharedAt: Time)
    requires Report(doc).Some?
    ensures var a := Report(doc).value;
            var s := Share(uid, year, month, true, doc, sharedAt);
            && s.summary == ShareSummary(a.summary.monthlyProgress, a.summary.successRate,
                                         a.summary.currentStreak, a.summary.activeHabits)
            && |s.details.value.habits| == |a.habitPerformance|
            && (forall i :: 0 <= i < |a.habitPerformance| ==>
                  && s.details.value.habits[i].name == a.habitPerformance[i].name
                  && s.details.value.habits[i].goal == a.habitPerformance[i].goal
                  && (s.details.value.habits[i].progress.Some? <==> a.habitPerformance[i].progress.Some?)
                  && (a.habitPerformance[i].progress.Some? ==>
                        s.details.value.habits[i].progress.value == a.habitPerformance[i].progress.value * 100.0))
            && |s.details.value.dailyStats| == |a.dailyPerformance|
            && (forall i :: 0 <= i < |a.dailyPerformance| ==>
                  s.details.value.dailyStats[i] == a.dailyPerformance[i].completions)
  {
  }

  /** A habit with ten completions and no goal: progress 10/31 of a daily
      goal. */
  lemma DailyHabitExample()
    ensures var doc := MonthDoc(None, Some([Habit(Some("Run"), Some(10), None)]), None, None, None);
            var a := Report(doc);
            && a.Some?
            && a.value.habitPerformance[0].progress == Some(10.0 / 31.0)
            && a.value.habitPerformance[0].goal == Daily
            && a.value.summary == Summary(1, 1, 0.0, 0.0, 0)
            && a.value.dailyPerformance == []
  {
  }
}

=== FILE: scenarios.dfy ===
/** Call sequences a client makes, proved from the handlers' contracts
    alone: what one call writes, the next call reads back. */
module Scenarios {
  import opened Outcomes
  import opened Documents
  import opened Service

  /** `syncHabitData` then `loadHabitData` for the same year and month finds
      the month with the state, habits and caller timestamp just written,
      and every statistic the write carried. */
  method SyncThenLoad(svc: HabitSyncService, auth: AuthContext, userId: string, hs: HabitState,
                      habits: seq<Habit>, stats: Stats, timestamp: int)
    returns (loaded: Result<LoadReply>)
    modifies svc
    ensures loaded.Ok? && loaded.value.Present?
    ensures loaded.value.data.habitState == Some(hs)
    ensures loaded.value.data.habits == Some(habits)
    ensures loaded.value.data.lastUpdated == Some(At(timestamp))
    ensures loaded.value.data.stats.Some? && Carries(loaded.value.data.stats.value, stats)
    ensures MonthRefOf(userId, hs.year, hs.month) !in old(svc.months) ==> loaded.value.data.stats == Some(stats)
  {
    var synced := svc.SyncHabitData(Some(auth), userId, Some(hs), Some(habits), Some(stats), timestamp, false);
    loaded := svc.LoadHabitData(Some(auth), userId, hs.year, hs.month, false);
  }

  /** `backupData` then `restoreData` with the returned identifier puts the
      backed-up month back in place as a fresh document: the snapshot's
      fields, the restore time, and no `lastUpdated`. */
  method BackupThenRestore(svc: HabitSyncService, auth: AuthContext, userId: string, snap: Snapshot,
                           timestamp: int, clock: nat, commitTime: int)
    returns (loaded: Result<LoadReply>)
    requires snap.habitState.Some? && snap.habits.Some? && snap.stats.Some?
    modifies svc
    ensures loaded == Ok(Present(MonthDoc(snap.habitState, snap.habits, snap.stats, None, Some(At(commitTime)))))
  {
    var backup := svc.BackupData(Some(auth), userId, Some(snap), timestamp, clock, false);
    var restored := svc.RestoreData(Some(auth), userId, backup.value.backupId, commitTime, false);
    loaded := svc.LoadHabitData(Some(auth), userId, snap.habitState.value.year, snap.habitState.value.month, false);
  }

  /** Two non-empty `updateSettings` calls both persist in what
      `getUserSettings` returns, beside the settings stored before; an empty
      update clears what came before it. */
  method UpdateTwiceThenGet(svc: HabitSyncService, auth: AuthContext, userId: string,
                            first: map<string, SettingValue>, second: map<string, SettingValue>,
                            t1: int, t2: int)
    returns (got: Result<map<string, SettingValue>>)
    modifies svc
    ensures got.Ok?
    ensures second == map[] ==> got.value == map[]
    ensures second != map[] && first == map[] ==> got.value == second
    ensures second != map[] && first != map[] ==>
              got.value.Keys == first.Keys + second.Keys + StoredSettings(Lookup(old(svc.users), userId)).Keys
    ensures forall k :: k in second ==> got.value[k] == second[k]
    ensures second != map[] ==> forall k :: k in first && k !in second ==> got.value[k] == first[k]
  {
    var u1 := svc.UpdateSettings(Some(auth), userId, Some(first), t1, false);
    var u2 := svc.UpdateSettings(Some(auth), userId, Some(second), t2, false);
    got := svc.GetUserSettings(Some(auth), userId, false);
  }

  /** A detailed share of a month holding a habit slot without a name is
      refused by the store: the caller receives `internal` and nothing is
      published. */
  method ShareUnnamedSlotFails(svc: HabitSyncService, auth: AuthContext, userId: string, year: int, month: int,
                               timestamp: int, clock: nat)
    returns (r: Result<ShareReply>)
    requires MonthRefOf(userId, year, month) in svc.months
    requires svc.months[MonthRefOf(userId, year, month)].habits == Some([Habit(None, Some(3), None)])
    modifies svc
    ensures r == Err(Internal)
    ensures svc.shares == old(svc.shares)
  {
    r := svc.ShareProgress(Some(auth), userId, year, month, true, timestamp, clock, false);
  }
}

=== FILE: service.dfy ===
/** The nine callable handlers over the document store. The store is a
    class whose four fields are the four collections, each a map from a
    document's path to the document:

      users/{userId}                      users
      users/{userId}/months/{year-month}  months
      users/{userId}/backups/{backupId}   backups
      shared_progress/{shareId}           shares

    Every handler checks `context.auth` first and fails with
    `Unauthenticated` before touching the store. Everything after that runs
    inside one `try`, whose `catch` reports any failure as `Internal`.
    What the store does on its own side is a parameter: `storeDown` says
    that the store fails this call's request, `commitTime` is the clock the
    store uses for a server timestamp, and `clock` is the reading of
    `Date.now()` an identifier is built from. */
module Service {
  import opened Outcomes
  import opened Documents
  import opened Keys
  import opened Reports

  /** The verified caller identity the platform passes as `context.auth`. */
  datatype AuthContext = AuthContext(uid: string)

  /** The path `users/{user}/months/{key}`. */
  datatype MonthRef = MonthRef(user: string, key: string)

  /** The path `users/{user}/backups/{id}`. */
  datatype BackupRef = BackupRef(user: string, id: string)

  datatype Ack = Ack(success: bool, message: string)
  /** `{exists: false}` or `{exists: true, data}`. */
  datatype LoadReply = Absent | Present(data: MonthDoc)
  /** `{id: doc.id, ...doc.data()}`. */
  datatype HistoryEntry = HistoryEntry(id: string, doc: MonthDoc)
  datatype BackupReply = BackupReply(backupId: string, message: string)
  datatype ShareReply = ShareReply(shareId: string, shareableData: ShareableData)

  function Lookup<K, V>(m: map<K, V>, k: K): Option<V> {
    if k in m then Some(m[k]) else None
  }

  /** The month document of `userId` for `year` and `month`. */
  function MonthRefOf(userId: string, year: int, month: int): MonthRef {
    MonthRef(userId, MonthKey(year, month))
  }

  /** The fields `syncHabitData` merges into a month document. Merged into
      whatever is stored, it sets the state, the habits and the caller's
      time, and keeps the stored `restoredAt`. */
  function SyncPatch(hs: HabitState, habits: seq<Habit>, stats: Stats, timestamp: int): (p: MonthDoc)
    ensures forall stored :: MergeMonth(stored, p).habitState == Some(hs)
                             && MergeMonth(stored, p).habits == Some(habits)
                             && MergeMonth(stored, p).lastUpdated == Some(At(timestamp))
                             && MergeMonth(stored, p).restoredAt == (if stored.Some? then stored.value.restoredAt else None)
  {
    MonthDoc(Some(hs), Some(habits), Some(stats), Some(At(timestamp)), None)
  }

  /** The whole month document `restoreData` writes: the snapshot's fields,
      which a later backup of it would capture unchanged, the restore time,
      and no `lastUpdated`. */
  function Restored(s: Snapshot, commitTime: int): (d: MonthDoc)
    ensures Snapshot(d.habitState, d.habits, d.stats) == s
    ensures d.lastUpdated.None? && d.restoredAt == Some(At(commitTime))
  {
    MonthDoc(s.habitState, s.habits, s.stats, None, Some(At(commitTime)))
  }

  /** A backup `restoreData` can copy back: present, with a snapshot whose
      `habitState`, `habits` and `stats` are all there. */
  predicate Restorable(backups: map<BackupRef, BackupDoc>, ref: BackupRef) {
    && ref in backups
    && backups[ref].data.Some?
    && backups[ref].data.value.habitState.Some?
    && backups[ref].data.value.habits.Some?
    && backups[ref].data.value.stats.Some?
  }

  /** The month documents of `user` that carry the `habitState` the history
      query orders by (the query leaves out documents without it). */
  function Dated(months: map<MonthRef, MonthDoc>, user: string): (s: set<MonthRef>)
    ensures forall r :: r in s ==> r in months && r.user == user && months[r].habitState.Some?
    ensures forall r :: r in months && r.user == user && months[r].habitState.Some? ==> r in s
  {
    set r | r in months && r.user == user && months[r].habitState.Some?
  }

  /** `a` is not older than `b` in the order (year desc, month desc). */
  predicate NotOlder(a: MonthDoc, b: MonthDoc) {
    && a.habitState.Some? && b.habitState.Some?
    && (|| a.habitState.value.year > b.habitState.value.year
        || (a.habitState.value.year == b.habitState.value.year
            && a.habitState.value.month >= b.habitState.value.month))
  }

  /** `limitMonths = 12`: the default applies only when the field is
      absent. */
  function HistoryLimit(limitMonths: Option<int>): int {
    if limitMonths.Some? then limitMonths.value else 12
  }

  function Min(a: int, b: int): int {
    if a <= b then a else b
  }

  ghost function IdsOf(entries: seq<HistoryEntry>): set<string> {
    set i | 0 <= i < |entries| :: entries[i].id
  }

  /** `entries` is an answer to the query `orderBy('habitState.year',
      'desc').orderBy('habitState.month', 'desc').limit(limit)` over the
      month documents of `user`: distinct documents of the user, newest
      first, as many as the limit allows, and none left out that is newer
      than one taken. */
  ghost predicate NewestFirst(months: map<MonthRef, MonthDoc>, user: string, limit: nat,
                              entries: seq<HistoryEntry>)
  {
    && |entries| == Min(limit, |Dated(months, user)|)
    && (forall i :: 0 <= i < |entries| ==>
          MonthRef(user, entries[i].id) in Dated(months, user)
          && entries[i].doc == months[MonthRef(user, entries[i].id)])
    && (forall i, j :: 0 <= i < j < |entries| ==> entries[i].id != entries[j].id)
    && (forall i, j :: 0 <= i < j < |entries| ==> NotOlder(entries[i].doc, entries[j].doc))
    && (forall r :: r in Dated(months, user) && r.key !in IdsOf(entries) ==>
          forall i :: 0 <= i < |entries| ==> NotOlder(entries[i].doc, months[r]))
  }

  /** An answer to the history query is as long as the limit allows, and
      every document in it carries a `habitState`. */
  lemma NewestFirstFills(months: map<MonthRef, MonthDoc>, user: string, limit: nat, entries: seq<HistoryEntry>)
    requires NewestFirst(months, user, limit, entries)
    ensures |entries| == limit || |entries| == |Dated(months, user)|
    ensures |entries| <= limit
    ensures forall i :: 0 <= i < |entries| ==> entries[i].doc.habitState.Some?
  {
  }

  /** Any two dated month documents are ordered one way or the other. */
  lemma NotOlderTotal(a: MonthDoc, b: MonthDoc)
    requires a.habitState.Some? && b.habitState.Some?
    ensures NotOlder(a, b) || NotOlder(b, a)
  {
  }

  /** Every finite non-empty set of dated month documents has a newest one. */
  lemma {:induction false} NewestExists(months: map<MonthRef, MonthDoc>, s: set<MonthRef>)
    requires s != {}
    requires forall r :: r in s ==> r in months && months[r].habitState.Some?
    ensures exists n :: n in s && forall r :: r in s ==> NotOlder(months[n], months[r])
    decreases s
  {
    var x :| x in s;
    var rest := s - {x};
    if s == {x} {
      assert NotOlder(months[x], months[x]);
    } else {
      NewestExists(months, rest);
      var n :| n in rest && forall r :: r in rest ==> NotOlder(months[n], months[r]);
      NotOlderTotal(months[n], months[x]);
      if NotOlder(months[n], months[x]) {
        forall r | r in s
          ensures NotOlder(months[n], months[r])
        {
          if r != x {
            assert r in rest;
          }
        }
      } else {
        forall r | r in s
          ensures NotOlder(months[x], months[r])
        {
          if r != x {
            assert r in rest;
            assert NotOlder(months[n], months[r]);
          }
        }
      }
    }
  }

  lemma IdsOfAppend(entries: seq<HistoryEntry>, e: HistoryEntry)
    ensures IdsOf(entries + [e]) == IdsOf(entries) + {e.id}
  {
    var ext := entries + [e];
    assert forall i :: 0 <= i < |entries| ==> ext[i] == entries[i];
    assert ext[|entries|] == e;
  }

  /** What the selection standing for the history query has established
      after taking `entries` and leaving `remaining`: the entries are
      distinct dated documents of the user, newest first, each at least as
      new as every document still remaining, and every dated document is
      either taken or remaining. */
  ghost predicate Selected(months: map<MonthRef, MonthDoc>, user: string, limit: nat,
                           remaining: set<MonthRef>, entries: seq<HistoryEntry>)
  {
    && remaining <= Dated(months, user)
    && |entries| <= limit
    && |entries| + |remaining| == |Dated(months, user)|
    && (forall i :: 0 <= i < |entries| ==>
          && MonthRef(user, entries[i].id) in Dated(months, user)
          && MonthRef(user, entries[i].id) !in remaining
          && entries[i].doc == months[MonthRef(user, entries[i].id)])
    && (forall i, j :: 0 <= i < j < |entries| ==> entries[i].id != entries[j].id)
    && (forall i, j :: 0 <= i < j < |entries| ==> NotOlder(entries[i].doc, entries[j].doc))
    && (forall q, i :: q in remaining && 0 <= i < |entries| ==> NotOlder(entries[i].doc, months[q]))
    && (forall q :: q in Dated(months, user) && q !in remaining ==> q.key in IdsOf(entries))
  }

  /** Taking the newest remaining document keeps the selection's invariant. */
  lemma SelectNext(months: map<MonthRef, MonthDoc>, user: string, limit: nat,
                   remaining: set<MonthRef>, entries: seq<HistoryEntry>, next: MonthRef)
    requires Selected(months, user, limit, remaining, entries) && |entries| < limit
    requires next in remaining && forall q :: q in remaining ==> NotOlder(months[next], months[q])
    ensures Selected(months, user, limit, remaining - {next}, entries + [HistoryEntry(next.key, months[next])])
  {
    IdsOfAppend(entries, HistoryEntry(next.key, months[next]));
  }

  /** A selection that reached the limit or ran out of documents answers the
      history query. */
  lemma SelectedDone(months: map<MonthRef, MonthDoc>, user: string, limit: nat,
                     remaining: set<MonthRef>, entries: seq<HistoryEntry>)
    requires Selected(months, user, limit, remaining, entries)
    requires |entries| == limit || remaining == {}
    ensures NewestFirst(months, user, limit, entries)
  {
  }

  /** Every dated month document sits at the key of its own year and month. */
  ghost predicate KeyedMonths(months: map<MonthRef, MonthDoc>) {
    forall r :: r in months && months[r].habitState.Some? ==>
      r.key == MonthKey(months[r].habitState.value.year, months[r].habitState.value.month)
  }

  /** When every month sits at its own key, an answer to the history query
      never lists the same year and month twice. */
  lemma NewestFirstDistinctMonths(months: map<MonthRef, MonthDoc>, user: string, limit: nat,
                                  entries: seq<HistoryEntry>)
    requires KeyedMonths(months) && NewestFirst(months, user, limit, entries)
    ensures forall i, j :: 0 <= i < j < |entries| ==> entries[i].doc.habitState != entries[j].doc.habitState
  {
    forall i, j | 0 <= i < j < |entries|
      ensures entries[i].doc.habitState != entries[j].doc.habitState
    {
      var ri, rj := MonthRef(user, entries[i].id), MonthRef(user, entries[j].id);
      assert ri.key != rj.key;
    }
  }

  /** A write to the month document of (user, year, month) leaves the month
      document of every other (user, year, month) as it was. */
  lemma OtherMonthsUntouched(months: map<MonthRef, MonthDoc>, user: string, year: int, month: int,
                             doc: MonthDoc, user2: string, year2: int, month2: int)
    requires (user2, year2, month2) != (user, year, month)
    ensures Lookup(months[MonthRefOf(user, year, month) := doc], MonthRefOf(user2, year2, month2))
         == Lookup(months, MonthRefOf(user2, year2, month2))
  {
    MonthKeyInjective(year, month, year2, month2);
  }

  class HabitSyncService {
    var users: map<string, UserDoc>
    var months: map<MonthRef, MonthDoc>
    var backups: map<BackupRef, BackupDoc>
    var shares: map<string, ShareableData>

    /** Every dated month document sits at the key of its own year and
        month, so the store holds at most one document per user and month. */
    ghost predicate Keyed()
      reads this
    {
      KeyedMonths(months)
    }

    /** A deployment whose store starts out empty. */
    constructor ()
      ensures users == map[] && months == map[] && backups == map[] && shares == map[]
      ensures Keyed()
    {
      users, months, backups, shares := map[], map[], map[], map[];
    }

    /** `syncHabitData`: merge the month's state, habits and stats, stamped
        with the caller's time, into the month document named by
        `habitState`. */
    method SyncHabitData(auth: Option<AuthContext>, userId: string, habitState: Option<HabitState>,
                         habits: Option<seq<Habit>>, stats: Option<Stats>, timestamp: int,
                         storeDown: bool)
      returns (r: Result<Ack>)
      modifies this
      ensures r.Ok? <==> auth.Some? && habitState.Some? && habits.Some? && stats.Some? && !storeDown
      ensures r.Err? ==> r.error == (if auth.None? then Unauthenticated else Internal)
      ensures r.Err? ==> months == old(months)
      ensures r.Ok? ==> r.value == Ack(true, "Data synced successfully")
      ensures r.Ok? ==>
                var ref := MonthRefOf(userId, habitState.value.year, habitState.value.month);
                months == old(months)[ref := MergeMonth(Lookup(old(months), ref),
                                                        SyncPatch(habitState.value, habits.value, stats.value, timestamp))]
      ensures users == old(users) && backups == old(backups) && shares == old(shares)
      ensures old(Keyed()) ==> Keyed()
    {
      if auth.None? {
        return Err(Unauthenticated);
      }
      var attempt: Attempt<Ack>;
      if habitState.None? {
        attempt := Threw(TypeError);  // reading `habitState.year`
      } else if habits.None? || stats.None? {
        attempt := Threw(UndefinedField);
      } else if storeDown {
        attempt := Threw(StoreUnavailable);
      } else {
        var ref := MonthRefOf(userId, habitState.value.year, habitState.value.month);
        months := months[ref := MergeMonth(Lookup(months, ref),
                                           SyncPatch(habitState.value, habits.value, stats.value, timestamp))];
        attempt := Done(Ack(true, "Data synced successfully"));
      }
      r := Caught(attempt);
    }

    /** `loadHabitData`: the month document, if there is one. */
    method LoadHabitData(auth: Option<AuthContext>, userId: string, year: int, month: int, storeDown: bool)
      returns (r: Result<LoadReply>)
      ensures auth.None? ==> r == Err(Unauthenticated)
      ensures auth.Some? ==> (r.Ok? <==> !storeDown)
      ensures r.Err? && auth.Some? ==> r.error == Internal
      ensures r.Ok? ==> (r.value.Present? <==> MonthRefOf(userId, year, month) in months)
      ensures r.Ok? && r.value.Present? ==> r.value.data == months[MonthRefOf(userId, year, month)]
    {
      if auth.None? {
        return Err(Unauthenticated);
      }
      var attempt: Attempt<LoadReply>;
      var ref := MonthRefOf(userId, year, month);
      if storeDown {
        attempt := Threw(StoreUnavailable);
      } else if ref !in months {
        attempt := Done(Absent);
      } else {
        attempt := Done(Present(months[ref]));
      }
      r := Caught(attempt);
    }

    /** `getHistoricalData`: the user's newest month documents, at most
        `limitMonths` (12 when not given) of them. The store rejects a
        negative limit, which the caller receives as `internal`. The store
        runs the query; the loop below stands for it, taking the newest
        remaining document until the limit is reached. */
    method GetHistoricalData(auth: Option<AuthContext>, userId: string, limitMonths: Option<int>,
                             storeDown: bool)
      returns (r: Result<seq<HistoryEntry>>)
      ensures auth.None? ==> r == Err(Unauthenticated)
      ensures auth.Some? ==> (r.Ok? <==> !storeDown && HistoryLimit(limitMonths) >= 0)
      ensures r.Err? && auth.Some? ==> r.error == Internal
      ensures r.Ok? ==> HistoryLimit(limitMonths) >= 0
                        && NewestFirst(months, userId, HistoryLimit(limitMonths) as nat, r.value)
      ensures r.Ok? && Keyed() ==>
                forall i, j :: 0 <= i < j < |r.value| ==> r.value[i].doc.habitState != r.value[j].doc.habitState
    {
      if auth.None? {
        return Err(Unauthenticated);
      }
      if storeDown {
        return Caught(Threw(StoreUnavailable));
      }
      if HistoryLimit(limitMonths) < 0 {
        return Caught(Threw(InvalidArgument));
      }
      var limit: nat := HistoryLimit(limitMonths);
      var remaining := Dated(months, userId);
      var entries: seq<HistoryEntry> := [];
      while |entries| < limit && remaining != {}
        invariant Selected(months, userId, limit, remaining, entries)
        decreases remaining
      {
        NewestExists(months, remaining);
        var next :| next in remaining && forall q :: q in remaining ==> NotOlder(months[next], months[q]);
        SelectNext(months, userId, limit, remaining, entries, next);
        entries := entries + [HistoryEntry(next.key, months[next])];
        remaining := remaining - {next};
      }
      SelectedDone(months, userId, limit, remaining, entries);
      if Keyed() {
        NewestFirstDistinctMonths(months, userId, limit, entries);
      }
      r := Caught(Done(entries));
    }

    /** `generateAnalytics`: the analytics report of a stored month. A
        missing month throws `not-found` inside the `try`, so the caller
        receives `internal`. */
    method GenerateAnalytics(auth: Option<AuthContext>, userId: string, year: int, month: int,
                             storeDown: bool)
      returns (r: Result<Analytics>)
      ensures auth.None? ==> r == Err(Unauthenticated)
      ensures r.Err? && auth.Some? ==> r.error == Internal
      ensures r.Ok? <==> && auth.Some? && !storeDown
                         && MonthRefOf(userId, year, month) in months
                         && !DailyThrows(months[MonthRefOf(userId, year, month)].stats)
      ensures r.Ok? ==> Report(months[MonthRefOf(userId, year, month)]) == Some(r.value)
    {
      if auth.None? {
        return Err(Unauthenticated);
      }
      var attempt: Attempt<Analytics>;
      var ref := MonthRefOf(userId, year, month);
      if storeDown {
        attempt := Threw(StoreUnavailable);
      } else if ref !in months {
        attempt := Threw(NotFoundError);
      } else {
        var report := Report(months[ref]);
        attempt := if report.None? then Threw(TypeError) else Done(report.value);
      }
      r := Caught(attempt);
    }

    /** `backupData`: store the client's snapshot under `backup_<clock>`,
        replacing a backup of the same name. */
    method BackupData(auth: Option<AuthContext>, userId: string, data: Option<Snapshot>, timestamp: int,
                      clock: nat, storeDown: bool)
      returns (r: Result<BackupReply>)
      modifies this
      ensures r.Ok? <==> auth.Some? && data.Some? && !storeDown
      ensures r.Err? ==> r.error == (if auth.None? then Unauthenticated else Internal)
      ensures r.Err? ==> backups == old(backups)
      ensures r.Ok? ==> r.value == BackupReply(BackupId(clock), "Backup created successfully")
      ensures r.Ok? ==> backups == old(backups)[BackupRef(userId, BackupId(clock)) :=
                                               BackupDoc(data, At(timestamp), BackupId(clock))]
      ensures users == old(users) && months == old(months) && shares == old(shares)
    {
      if auth.None? {
        return Err(Unauthenticated);
      }
      var attempt: Attempt<BackupReply>;
      var backupId := BackupId(clock);
      if data.None? {
        attempt := Threw(UndefinedField);
      } else if storeDown {
        attempt := Threw(StoreUnavailable);
      } else {
        backups := backups[BackupRef(userId, backupId) := BackupDoc(data, At(timestamp), backupId)];
        attempt := Done(BackupReply(backupId, "Backup created successfully"));
      }
      r := Caught(attempt);
    }

    /** `restoreData`: overwrite (no merge) the month document named by a
        backup's `habitState` with the backup's snapshot. */
    method RestoreData(auth: Option<AuthContext>, userId: string, backupId: string, commitTime: int,
                       storeDown: bool)
      returns (r: Result<string>)
      modifies this
      ensures r.Ok? <==> auth.Some? && !storeDown && Restorable(backups, BackupRef(userId, backupId))
      ensures r.Err? ==> r.error == (if auth.None? then Unauthenticated else Internal)
      ensures r.Err? ==> months == old(months)
      ensures r.Ok? ==> r.value == "Data restored successfully"
      ensures r.Ok? ==>
                var s := backups[BackupRef(userId, backupId)].data.value;
                months == old(months)[MonthRefOf(userId, s.habitState.value.year, s.habitState.value.month) :=
                                      Restored(s, commitTime)]
      ensures users == old(users) && backups == old(backups) && shares == old(shares)
      ensures old(Keyed()) ==> Keyed()
    {
      if auth.None? {
        return Err(Unauthenticated);
      }
      var attempt: Attempt<string>;
      var ref := BackupRef(userId, backupId);
      if storeDown {
        attempt := Threw(StoreUnavailable);
      } else if ref !in backups {
        attempt := Threw(NotFoundError);
      } else if backups[ref].data.None? || backups[ref].data.value.habitState.None? {
        attempt := Threw(TypeError);  // destructuring `data`, reading `habitState.year`
      } else if backups[ref].data.value.habits.None? || backups[ref].data.value.stats.None? {
        attempt := Threw(UndefinedField);
      } else {
        var s := backups[ref].data.value;
        months := months[MonthRefOf(userId, s.habitState.value.year, s.habitState.value.month) :=
                         Restored(s, commitTime)];
        attempt := Done("Data restored successfully");
      }
      r := Caught(attempt);
    }

    /** `shareProgress`: publish the month's shareable record under
        `share_<clock>`, replacing a record of the same name. A record with
        details for a habit without a name carries `name: undefined`; the
        store refuses it, so the caller receives `internal`. */
    method ShareProgress(auth: Option<AuthContext>, userId: string, year: int, month: int,
                         includeDetails: bool, timestamp: int, clock: nat, storeDown: bool)
      returns (r: Result<ShareReply>)
      modifies this
      ensures r.Ok? <==> && auth.Some? && !storeDown && MonthRefOf(userId, year, month) in months
                         && Storable(Share(auth.value.uid, year, month, includeDetails,
                                           months[MonthRefOf(userId, year, month)], At(timestamp)))
      ensures r.Err? ==> r.error == (if auth.None? then Unauthenticated else Internal)
      ensures r.Err? ==> shares == old(shares)
      ensures r.Ok? ==>
                var data := Share(auth.value.uid, year, month, includeDetails,
                                  months[MonthRefOf(userId, year, month)], At(timestamp));
                && r.value == ShareReply(ShareId(clock), data)
                && shares == old(shares)[ShareId(clock) := data]
      ensures users == old(users) && months == old(months) && backups == old(backups)
    {
      if auth.None? {
        return Err(Unauthenticated);
      }
      var attempt: Attempt<ShareReply>;
      var ref := MonthRefOf(userId, year, month);
      if storeDown {
        attempt := Threw(StoreUnavailable);
      } else if ref !in months {
        attempt := Threw(NotFoundError);
      } else {
        var data := Share(auth.value.uid, year, month, includeDetails, months[ref], At(timestamp));
        var shareId := ShareId(clock);
        if !Storable(data) {
          attempt := Threw(UndefinedField);
        } else {
          shares := shares[shareId := data];
          attempt := Done(ShareReply(shareId, data));
        }
      }
      r := Caught(attempt);
    }

    /** `updateSettings`: merge the settings into the user document. */
    method UpdateSettings(auth: Option<AuthContext>, userId: string,
                          settings: Option<map<string, SettingValue>>, commitTime: int, storeDown: bool)
      returns (r: Result<Ack>)
      modifies this
      ensures r.Ok? <==> auth.Some? && settings.Some? && !storeDown
      ensures r.Err? ==> r.error == (if auth.None? then Unauthenticated else Internal)
      ensures r.Err? ==> users == old(users)
      ensures r.Ok? ==> r.value == Ack(true, "Settings updated successfully")
      ensures r.Ok? ==> users == old(users)[userId := MergeUser(Lookup(old(users), userId), settings.value,
                                                                At(commitTime))]
      ensures months == old(months) && backups == old(backups) && shares == old(shares)
    {
      if auth.None? {
        return Err(Unauthenticated);
      }
      var attempt: Attempt<Ack>;
      if settings.None? {
        attempt := Threw(UndefinedField);
      } else if storeDown {
        attempt := Threw(StoreUnavailable);
      } else {
        users := users[userId := MergeUser(Lookup(users, userId), settings.value, At(commitTime))];
        attempt := Done(Ack(true, "Settings updated successfully"));
      }
      r := Caught(attempt);
    }

    /** `getUserSettings`: the stored settings, `{}` when the user document
        or its `settings` field is absent. */
    method GetUserSettings(auth: Option<AuthContext>, userId: string, storeDown: bool)
      returns (r: Result<map<string, SettingValue>>)
      ensures auth.None? ==> r == Err(Unauthenticated)
      ensures auth.Some? ==> (r.Ok? <==> !storeDown)
      ensures r.Err? && auth.Some? ==> r.error == Internal
      ensures r.Ok? && (userId !in users || users[userId].settings.None?) ==> r.value == map[]
      ensures r.Ok? && userId in users && users[userId].settings.Some? ==> r.value == users[userId].settings.value
    {
      if auth.None? {
        return Err(Unauthenticated);
      }
      var attempt: Attempt<map<string, SettingValue>>;
      if storeDown {
        attempt := Threw(StoreUnavailable);
      } else if userId in users && users[userId].settings.Some? {
        attempt := Done(users[userId].settings.value);
      } else {
        attempt := Done(map[]);
      }
      r := Caught(attempt);
    }
  }
}
